=== FILE: README.md ===
# QUIQQER lock client, modelled in Dafny

QUIQQER's lock client does not resolve dependencies itself. It hands a
project's `composer.json` to a remote lock server and returns the
`composer.lock` the server produces. This project models the decision
rules of that client as pure Dafny functions. The rules cover the order of
the precondition checks, the endpoint and POST fields of each operation,
the classification of the HTTP outcome, and how the manifest's `require`
section is edited. The contracts and lemmas state what these rules promise.

The repository has two clients and one exception class:

- `QUI\Lockserver\Client` speaks the v2 protocol (`lockserver_client.dfy`,
  module `LockserverClient`). A client is its QDOM attribute store: the
  server URL, the `composer.json` path and the `composer.lock` path. Every
  operation checks its preconditions in a fixed order, and the first one
  that fails throws a `QUI\Exception` with code 400 or 404 before anything
  is sent. `install` posts the manifest to `/v2/install`. `update`,
  `dryUpdate`, `requires` and `dryRequires` go through `_send`, which adds
  both files' contents to the caller's fields and posts to `/v2/require` or
  `/v2/require/dry`. `_send` has no `return`, so these four operations yield
  nothing even when the server answers 200.
- `QUI\Lockclient\Lockclient` speaks the generate/delta protocol
  (`lockclient.dfy`, module `Lockclient`). `requirePackage` sets
  `require[package] = version` in the manifest, writes the manifest back and
  posts the new `require` section to `/generate`. `update` posts the current
  section, either to `/generate` (when the package argument is exactly
  `false`) or to `/updatePackage`. `getOutdated` and
  `getLatestVersionInContraints` are refused when the host's
  `lockserver_enabled` setting is falsy. Every request goes to the fixed base
  `https://lock.quiqqer.com/` followed by the endpoint. The endpoints begin
  with a slash of their own, so the URL contains a doubled slash (`…com//generate`);
  the model keeps it as written. A curl error and a non-200 status throw the
  same error.
- `LockServerException` (`lock_server_exception.dfy`, module
  `LockServerExceptions`). Without a QUIQQER host, its constructor collapses
  a `[package, key]` message array to `key`. With a host, the file is meant
  to declare a plain subclass of `QUI\Exception`, but the parent name it
  writes does not resolve (see "## Findings"). Nothing in the repository
  throws this class; the lock client throws `QUI\Exception` directly.

Shared layers:

- `common.dfy` holds `Option`, `Result`, and `FirstFailure`, which runs an
  ordered list of checks and reports the first one that fails.
- `php.dfy` holds the PHP semantics the code relies on: values, falsiness
  (`empty`, `!`), string conversion, array reads and writes (PHP 8
  behaviour), and the file system. The file system is a map from each
  existing path to its content, or to `None` when the file cannot be read.
- `http.dfy` holds requests as data (URL, fields, timeouts) and the
  transport outcome: `TransportError` or `Response(code, body)`.

Foreign effects are inputs and outputs:

- The HTTP outcome is a parameter of each operation.
- Every operation reports the request it sent, or `None` when it stopped
  before sending.
- `json_decode` and `json_encode` are function parameters. A decoder that
  answers `None` stands for a syntax error, which PHP reports as `null`.
- A POST field is either a PHP value sent as it is, or `JsonOf(v)`, the
  JSON text of `v`.
- Host detection is an input: the `isQuiqqer` flag for the v2 client, and
  `Host` (standalone, or QUIQQER with its `lockserver_enabled` setting) for
  the generate/delta client.

Behaviour worth knowing:

- Only `getOutdated` and `getLatestVersionInContraints` consult the enabled
  flag. `requirePackage`, `update` and the whole v2 client never do.
- `getOutdated` checks for no file. A missing lock file is posted as
  `false`, and a missing manifest reads as `null`.
- The generate/delta base URL is not configurable. Its timeouts are the
  constants 10 s (connect) and 30 s (total). The v2 client sets no timeouts
  of its own.
- There are no separate kinds for a transport failure and for an unexpected
  status. The generate/delta client throws `error.curl.unknown` for both.
  The v2 client throws code 400 with the response body as the message.
- An undecodable manifest is not reported. `requirePackage` treats it as an
  empty document. An undecodable response is not reported either: it is
  returned as `null`.
- The v2 `update`, `requires` and dry variants return nothing, not a lock
  document.

## Model

| member | source | states |
|---|---|---|
| `LockserverClient.New` | src/QUI/Lockserver/Client.php:28-44 | Defaults are `lockServer = https://lock.quiqqer.com` and empty `composerJsonFile`/`composerLockFile`. Each caller parameter overrides the default of the same name. `isQuiqqer` always reflects the host, whatever the parameters say. |
| `LockserverClient.PostRequest` | src/QUI/Lockserver/Client.php:267-282 | `_request` posts the given fields to the given URL. It returns the body unchanged iff the status is 200. Otherwise it throws code 400 with the body as message; a transport failure gives an empty message. |
| `LockserverClient.Install` | src/QUI/Lockserver/Client.php:52-89 | An empty server throws 400. Otherwise an empty or missing manifest path throws 404. Neither failure sends a request. Otherwise exactly `{composerJson: manifest contents}` is posted to server + `/v2/install`, and the 200 body is returned; any other answer throws 400 with the body as message. |
| `LockserverClient.NewClientDefaults` | src/QUI/Lockserver/Client.php:28-66 | A client built without a `lockServer` parameter passes the server check and targets `https://lock.quiqqer.com`. Its errors are locale keys exactly when a QUIQQER host is loaded, whatever the parameters say. |
| `LockserverClient.PostRequestAgreesWithSendPostRequest` | src/QUI/Lockserver/Client.php:267-282 | The v2 `_request` and the generate/delta `sendPostRequest` both succeed exactly on a 200 without a transport error, with the same body. On a non-200 answer the first throws 400 with the body, the second `error.curl.unknown`. |
| `LockserverClient.InstallIgnoresLockFile` | src/QUI/Lockserver/Client.php:52-89 | Changing the lock-file attribute, or any file other than the manifest, does not change what `install` does. |
| `LockserverClient.Send` | src/QUI/Lockserver/Client.php:204-258 | Checks run in order: server (400), lock file (404), manifest (404). The first failure wins and nothing is sent; a request is sent iff all pass. The posted fields are the caller's fields plus `composerJson` and `composerLock`, which overwrite same-named keys; other fields are unchanged. The URL is server + path. The result is `Ok(())` iff the status is 200, so the body is dropped. Any other answer throws code 400 with the body as message, or an empty message after a transport failure. |
| `LockserverClient.DryPackages` | src/QUI/Lockserver/Client.php:119-127 | A string argument becomes a one-element list. An empty non-string becomes `''`. Any other value is kept. |
| `LockserverClient.UpdatePayload` | src/QUI/Lockserver/Client.php:99-131 | `update` posts `package` as the JSON of the argument, with a string wrapped into a list, to `/v2/require`; `dryUpdate` always targets `/v2/require/dry`. For a string or non-empty argument, `dryUpdate` sends the same fields with the same outcome, and only the path differs (`/v2/require` vs `/v2/require/dry`). |
| `LockserverClient.DryUpdateEmptyArguments` | src/QUI/Lockserver/Client.php:119-132 | `dryUpdate()` and `dryUpdate('')` both post the list `[""]`. An empty non-string argument posts `''`. |
| `LockserverClient.RequiresPayload` | src/QUI/Lockserver/Client.php:143-166 | `requires` posts `package` and `version` verbatim, with `version` defaulting to `''`. `dryRequires` behaves identically except that it targets `/v2/require/dry`. |
| `LockserverClient.SendDropsBody` | src/QUI/Lockserver/Client.php:254-258 | After a 200, `_send`-based operations return `Ok(())` whatever the body was. |
| `LockserverClient.CheckJson` | src/QUI/Lockserver/Client.php:175-192 | Throws 400 "invalid JSON" iff the decoded value is falsy. A syntax error and the empty text fail, and a top-level JSON object always passes. |
| `LockserverClient.CheckJsonByText` | src/QUI/Lockserver/Client.php:177-179 | For a decoded value that is neither an array nor an object, `_checkJSON` accepts it exactly when its text is neither `''` nor `'0'`. |
| `Php.FalsyScalarsByText` | src/QUI/Lockserver/Client.php:57 | For every non-array value, `empty`/`!` hold exactly when the value's string conversion is `''` or `'0'`. |
| `LockserverClient.CheckJsonRejectsFalsyDocuments` | src/QUI/Lockserver/Client.php:177-179 | Valid JSON `[]`, `0`, `false`, `null`, `""` and `"0"` is still rejected. |
| `Common.FirstFailure` | src/QUI/Lockserver/Client.php:210-252 | No error iff every check holds. Otherwise the reported error belongs to a failing check before which every check holds. |
| `Lockclient.SendPostRequest` | src/QUI/Lockclient/Lockclient.php:168-220 | Posts to `https://lock.quiqqer.com/` + endpoint with timeouts 10 s and 30 s. Returns the body unchanged iff the status is 200 and there is no transport error. Transport errors and non-200 statuses both throw `error.curl.unknown`. |
| `Php.Member` | src/QUI/Lockclient/Lockclient.php:74 | Reading `$data['require']` gives the entry of an array, `null` for a missing entry or a scalar, and raises only for a string. |
| `Php.Assign` | src/QUI/Lockclient/Lockclient.php:38 | `$c['name'] = $x` with a non-numeric string key succeeds iff `$c` is null, false or an array. The key then holds `$x`, and every other entry is unchanged. |
| `Lockclient.WithRequirement` | src/QUI/Lockclient/Lockclient.php:37-38 | The edit succeeds iff the document and its `require` section are null, false or arrays. The new `require` map is the old one with `package` inserted or overwritten. All other top-level keys are unchanged. |
| `Lockclient.RequirePackage` | src/QUI/Lockclient/Lockclient.php:25-47 | A missing manifest throws NotFound and an unreadable one throws Unreadable, with no write and no request. For a readable manifest, a request is sent iff the edit succeeds; a failed edit (a document or `require` section that is a string or scalar) raises with no write and no request. Otherwise the edited document is written back, and exactly `{requires: new require map}` is posted to `/generate` with timeouts 10/30. The 200 body is returned; any other outcome throws `error.curl.unknown`. |
| `Lockclient.Update` | src/QUI/Lockclient/Lockclient.php:59-83 | Fails the same way for a missing or unreadable manifest and never writes. For a readable manifest it sends iff `$data['require']` can be read, and raises with no request when the document is a string. It posts `requires` = the current section. A package argument of exactly `false` targets `/generate` with that single field. Any other value targets `/updatePackage` and adds `package`. A failed request throws `error.curl.unknown`. |
| `Lockclient.GetOutdated` | src/QUI/Lockclient/Lockclient.php:91-112 | When the host is present and the flag is falsy, it throws `error.lock.disabled` with no request. Otherwise it sends iff the manifest's `require` and `repositories` can be read, and raises with no request when they cannot. It posts `{lock_content, requires, repositories}` read under `VAR_DIR` to `/versions/outdated` and returns the decoded body; a failed request throws `error.curl.unknown`. |
| `Lockclient.GetLatestVersionInConstraints` | src/QUI/Lockclient/Lockclient.php:139-157 | It is gated the same way. Otherwise it posts exactly `{constraints: JSON, stable: as given}` to `/versions/latest` and returns the decoded body. |
| `Lockclient.ManifestOperationsIgnoreHost` | src/QUI/Lockclient/Lockclient.php:25-83 | `requirePackage` and `update` behave the same whatever the host and its enabled flag are. |
| `Lockclient.RequirePackageThenUpdate` | src/QUI/Lockclient/Lockclient.php:37-75 | Assume a JSON codec that round-trips. After a `requirePackage` that sent its request, the next `update` posts the same `requires` section. In it, `package` maps to `version`, and every other entry is as before. |
| `Lockclient.GetOutdatedPostsUpdateSection` | src/QUI/Lockclient/Lockclient.php:71-106 | For an enabled client and a readable manifest under `VAR_DIR`, `getOutdated` sends iff `update` on that path does, and both post the same `requires`. |
| `Lockclient.RequirePackageThenGetOutdated` | src/QUI/Lockclient/Lockclient.php:37-106 | Assume a JSON codec that round-trips. After a `requirePackage` on the manifest under `VAR_DIR` that sent its request, an enabled `getOutdated` posts the edited `requires` section. |
| `Lockclient.DisabledErrorIffDisabled` | src/QUI/Lockclient/Lockclient.php:93-99 | `getOutdated` and `getLatestVersionInContraints` throw `error.lock.disabled` exactly when the host is present and the flag is falsy. `requirePackage` and `update` never throw it. |
| `Lockclient.LastRequirementWins` | src/QUI/Lockclient/Lockclient.php:37-40 | After successive edits, each package named in them holds the version of its last edit. A package no edit names keeps its entry, or stays absent. |
| `LockServerExceptions.BranchFor` | src/QUI/Lockclient/Exceptions/LockServerException.php:13-18 | The QUIQQER subclass is in effect iff both `QUI` and `QUI\Exception` are loaded. |
| `LockServerExceptions.Normalise` | src/QUI/Lockclient/Exceptions/LockServerException.php:24-25 | An array with entry 1 set (non-null) becomes that entry. A non-array, or an array without a set entry 1, is kept unchanged. |
| `Php.Text` | src/QUI/Lockserver/Client.php:72-86 | The implicit `(string)` of a path or server URL: a string is kept, `null` and `false` give `''`, `true` gives `1`, an array gives `Array`, and an integer gives decimal digits whose value reads back as the integer (after a `-` when negative). |
| `Php.DecodeAssoc` | src/QUI/Lockclient/Lockclient.php:101 | `json_decode($s, true)` of the empty text is `null`, whatever the decoder. |
| `Php.DecodeObject` | src/QUI/Lockserver/Client.php:177 | `json_decode($s)` of the empty text is `null`, whatever the decoder. |
| `Php.FileGetContents` | src/QUI/Lockclient/Lockclient.php:31-35 | The content of an existing readable file, and `false` for a missing or unreadable one. |
| `LockserverClient.Attribute` | src/QUI/Lockserver/Client.php:54-55 | QDOM's `getAttribute` gives the stored value of a set attribute and the falsy `false` for an unset one. |
| `LockserverClient.AsList` | src/QUI/Lockserver/Client.php:101-103 | A string argument becomes a one-element list; any other value is kept. |
| `Lockclient.ReadJson` | src/QUI/Lockclient/Lockclient.php:101 | Reading a JSON file decodes its content, and a missing or unreadable file decodes the empty text, hence `null`. |
| `Lockclient.Disabled` | src/QUI/Lockclient/Lockclient.php:93-99 | A standalone client is never disabled. Under a host, the client is disabled exactly when `lockserver_enabled` is falsy, `false` and `null` included. |
| `LockServerExceptions.Resolve` | src/QUI/Lockclient/Exceptions/LockServerException.php:3-14 | A class name with a leading backslash is absolute, with the backslash dropped. Any other name is taken relative to the namespace, joined by a backslash. |
| `LockServerExceptions.Declare` | src/QUI/Lockclient/Exceptions/LockServerException.php:3-18 | The class is declared in the branch the loaded classes select iff that branch's parent, resolved against the file's namespace, exists; otherwise PHP stops naming the resolved parent. |
| `LockServerExceptions.DeclareAsWritten` | src/QUI/Lockclient/Exceptions/LockServerException.php:3-18 | As written, the standalone branch always declares the class, and the QUIQQER branch does so only if a class `QUI\Lockclient\Exceptions\QUI\Exception` exists. |
| `LockServerExceptions.AsWrittenFailsUnderHost` | src/QUI/Lockclient/Exceptions/LockServerException.php:3-14 | With `QUI` and `QUI\Exception` loaded, the file as written fails to declare the class: its parent resolves to `QUI\Lockclient\Exceptions\QUI\Exception`. |
| `LockServerExceptions.DeclareCorrected` | src/QUI/Lockclient/Exceptions/LockServerException.php:13-18 | With the absolute parent `\QUI\Exception`, the class is declared for every set of loaded classes, in the branch they select. |
| `LockServerExceptions.New` | src/QUI/Lockclient/Exceptions/LockServerException.php:13-29 | Only the standalone branch rewrites the message. Code and previous are forwarded unchanged in both branches. |
| `LockServerExceptions.BranchesAgreeWithoutSecondEntry` | src/QUI/Lockclient/Exceptions/LockServerException.php:13-27 | Both branches keep code and previous, and they keep the same message unless it is an array with entry 1 set. |
| `LockServerExceptions.NewDefaults` | src/QUI/Lockclient/Exceptions/LockServerException.php:20 | The standalone constructor's defaults are message `""`, code `0` and no previous exception. |
| `LockServerExceptions.GroupKeyMessagesCollapseToKey` | src/QUI/Lockclient/Exceptions/LockServerException.php:22-27 | A `[quiqqer/lockclient, key]` array, of the shape the lock client passes to `QUI\Exception`, becomes `key` when standalone, and is handed whole to the parent under a host. |

## Findings

| source | as written | input that shows it | evidently intended | confidence | as-written member | corrected member |
|---|---|---|---|---|---|---|
| src/QUI/Lockclient/Exceptions/LockServerException.php:3-14 | Inside `namespace QUI\Lockclient\Exceptions`, with only `Throwable` imported, `extends QUI\Exception` names `QUI\Lockclient\Exceptions\QUI\Exception`. | Classes `QUI` and `QUI\Exception` both loaded: the branch is taken and the parent class is not found, so the file cannot declare `LockServerException`. | `extends \QUI\Exception`, a subclass of the host's exception. | not executed; high | `LockServerExceptions.DeclareAsWritten` (`AsWrittenFailsUnderHost`, `AsWrittenCounterexample`) | `LockServerExceptions.DeclareCorrected` |

## Left out

- The HTTP exchange itself (curl, `QUI\Utils\Request\Url::Curl`/`exec`) and the enforcement of timeouts are network I/O. The outcome is an input.
- `QUI\Utils\Request\Url::exec` is not part of this model. For the v2 client, a transport failure is taken as status 0 with curl's `false` result, which throws code 400 with an empty message. If `exec` throws on its own, that exception would replace this one.
- Wire encodings are foreign library calls. This covers `http_build_query`, curl's multipart encoding of array fields, `json_encode`/`json_decode` and `JSON_PRETTY_PRINT` layout. Fields carry structured values, and the codecs are parameters.
- Locale lookups (`QUI::getLocale()->get`) only change message text. Errors carry the locale key instead.
- `Log::addError` records are side effects with no bearing on results.
- The outcome encoding (`TransportError` or `Response`) cannot express a transport error after a status line has been read, such as `CURLOPT_TIMEOUT` expiring while a 200 body downloads. There `sendPostRequest` tests the curl error first and throws `error.curl.unknown`, while the v2 `_request` tests only the status and would return curl's `false` as a success. `PostRequestAgreesWithSendPostRequest` holds only within this encoding.
- The internals of `QUI\QDOM` belong to an external class. Attributes are a map, and an unset attribute reads as `false`.
- Floating-point values are not modelled. JSON such as `0.0`, which `_checkJSON` would also reject, is not represented.
- PHP turns canonical integer strings used as array keys (`"1"`) into integer keys. The model keeps the two apart, so a package named `"0"` is stored under a string key.
- Array access on non-arrays follows PHP 8: a string or scalar raises an `Error`, and `null` or `false` autovivify. PHP 7's warnings and no-ops are not modelled.
- `file_exists` with an array-valued path raises a `TypeError` in PHP 8. The model looks up the text `Array` instead.
- Failures of `file_put_contents` and `json_encode` are ignored by the code, so the model's write always stores the encoder's text.
- `VAR_DIR` is a parameter. An undefined constant in a standalone setup is not modelled.
- The generate/delta client throws `QUI\Exception` unguarded, so it assumes that class can be loaded. In a setup without it, PHP raises "class not found" instead of `error.lock.disabled` or `error.curl.unknown`; `Host` and `LockclientError` do not model that environment.
- `LockServerExceptions.NewDefaults`: states the standalone constructor's defaults only. The host class declares no constructor, so `new LockServerException()` there gets the defaults of the external `QUI\Exception`, which is not part of this model.
- `LockServerExceptions.New`: models the class as `DeclareCorrected` declares it; as written, the QUIQQER branch does not load (see "## Findings"). Its parent `QUI\Exception` is an external class, so under a host `message` is the argument handed to it, not the stored, translated message. `\Exception`'s own parameter types are not modelled either. A message left as an array, or a non-integer code, would make PHP raise a `TypeError` in the parent constructor.
- `LockserverClient.Update`, `LockserverClient.DryUpdate`, `LockserverClient.Requires` and `LockserverClient.DryRequires` carry no contract of their own. Their behaviour is `Send`'s, and `UpdatePayload`, `DryUpdateEmptyArguments` and `RequiresPayload` state their payloads.
- `example/example.php`, `example/example_install.php` and `example/example_require.php` are demo scripts doing only I/O and printing.

=== FILE: common.dfy ===
/** Failure-carrying datatypes shared by the whole model, and the ordered
    precondition checks that every operation of the lock client runs before it
    touches the network. */
module Common {

  datatype Option<+T> = None | Some(value: T)

  /** The outcome of an operation: a value, or the exception the PHP code throws. */
  datatype Result<+T, +E> = Ok(value: T) | Err(error: E)

  /** One precondition: whether it holds, and the error thrown when it does not. */
  datatype Check<+E> = Check(holds: bool, error: E)

  /** True iff every check before position `i` holds. */
  ghost predicate HoldBefore<E>(checks: seq<Check<E>>, i: int)
    requires 0 <= i <= |checks|
  {
    forall j :: 0 <= j < i ==> checks[j].holds
  }

  /** The error of the first check that fails, when the checks run in order and
      the first failing one throws; `None` when all of them hold. */
  function FirstFailure<E>(checks: seq<Check<E>>): (r: Option<E>)
    ensures r.None? <==> forall i :: 0 <= i < |checks| ==> checks[i].holds
    ensures r.Some? ==>
      exists i :: 0 <= i < |checks| && !checks[i].holds && HoldBefore(checks, i)
                  && checks[i].error == r.value
  {
    if |checks| == 0 then None
    else if !checks[0].holds then
      assert HoldBefore(checks, 0);
      Some(checks[0].error)
    else
      var rest := FirstFailure(checks[1..]);
      if rest.Some? then
        assert exists i :: 0 <= i < |checks| && !checks[i].holds && HoldBefore(checks, i)
                           && checks[i].error == rest.value by {
          var i :| 0 <= i < |checks[1..]| && !checks[1..][i].holds && HoldBefore(checks[1..], i)
                   && checks[1..][i].error == rest.value;
          assert HoldBefore(checks, i + 1);
        }
        rest
      else
        assert forall i :: 1 <= i < |checks| ==> checks[i] == checks[1..][i - 1];
        rest
  }
}

=== FILE: http.dfy ===
/** The HTTP exchange as data: the POST request an operation issues, and the
    outcome the transport reports for it. The exchange itself is not modelled;
    its outcome is an input of every operation that sends. */
module Http {
  import opened Common
  import opened Php

  /** One POST field: a PHP value sent as it is, or the JSON text of a value
      (`json_encode($v)`). The form encoding of the body is not modelled. */
  datatype Field = Raw(value: Value) | JsonOf(value: Value)

  /** The curl timeouts of a request, in seconds. */
  datatype Timeouts = CurlDefaults | Limits(connectSeconds: nat, totalSeconds: nat)

  datatype Request = Request(url: string, fields: map<string, Field>, timeouts: Timeouts)

  /** What the transport reports: a curl-level failure, or an HTTP response. */
  datatype Outcome = TransportError(reason: string) | Response(code: int, body: string)

  /** A request-issuing operation: the request it sent (`None` when it failed
      before sending) and what it returned or threw. */
  datatype Call<+T, +E> = Call(sent: Option<Request>, result: Result<T, E>)

  predicate IsOk(outcome: Outcome)
  {
    outcome.Response? && outcome.code == 200
  }
}

=== FILE: lock_server_exception.dfy ===
/** `QUI\Lockclient\Exceptions\LockServerException`.

    The class is declared one of two ways, depending on what is loaded. When
    `QUI` and `QUI\Exception` both exist, it is meant to be a plain subclass
    of `QUI\Exception`, which receives the message as it is (and, per the
    source's comment on the standalone constructor, translates a
    `[package, key]` array itself). As written, that parent name is relative
    to the file's namespace and names a class that does not exist;
    `DeclareAsWritten` models this and `DeclareCorrected` the intended
    absolute name. Standalone, the class
    extends `\Exception`, and its constructor first collapses a
    `[package, key]` message array to the bare locale key. */
module LockServerExceptions {
  import opened Common
  import opened Php
  import Lockclient

  datatype Branch = QuiSubclass | Standalone

  /** An earlier exception chained as `previous`, kept opaque. */
  datatype Throwable = Throwable(description: string)

  datatype LockServerException =
    LockServerException(branch: Branch, message: Value, code: Value, previous: Option<Throwable>)

  /** Which declaration is in effect. */
  function BranchFor(quiLoaded: bool, quiExceptionLoaded: bool): (b: Branch)
    ensures b == QuiSubclass <==> quiLoaded && quiExceptionLoaded
  {
    if quiLoaded && quiExceptionLoaded then QuiSubclass else Standalone
  }

  /** The namespace the file declares. */
  const FileNamespace: string := "QUI\\Lockclient\\Exceptions"

  /** PHP's resolution of a class name in a namespace with no `use` import of
      it: a leading backslash makes it absolute, anything else is taken
      relative to the namespace. */
  function Resolve(ns: string, name: string): (full: string)
    ensures |name| > 0 && name[0] == '\\' ==> full == name[1..]
    ensures !(|name| > 0 && name[0] == '\\') ==> full == ns + "\\" + name
  {
    if |name| > 0 && name[0] == '\\' then name[1..] else ns + "\\" + name
  }

  /** `class_exists`, given the user classes loaded; PHP's own `Exception`
      always exists. */
  predicate ClassExists(loaded: set<string>, name: string)
  {
    name == "Exception" || name in loaded
  }

  /** The outcome of running the file: the class is declared in one of the
      branches, or PHP stops with a fatal error because the parent class
      named in the declaration cannot be found. */
  datatype Declaration = Declared(branch: Branch) | ParentNotFound(parent: string)

  /** The file's conditional declaration, where `hostParent` is the parent
      name written in the QUIQQER branch. */
  function Declare(loaded: set<string>, hostParent: string): (d: Declaration)
    ensures var branch := BranchFor(ClassExists(loaded, "QUI"), ClassExists(loaded, "QUI\\Exception"));
            var parent := Resolve(FileNamespace, if branch == QuiSubclass then hostParent else "\\Exception");
            && (d.Declared? <==> ClassExists(loaded, parent))
            && (d.Declared? ==> d.branch == branch)
            && (d.ParentNotFound? ==> d.parent == parent)
  {
    var branch := BranchFor(ClassExists(loaded, "QUI"), ClassExists(loaded, "QUI\\Exception"));
    var parent := Resolve(FileNamespace, if branch == QuiSubclass then hostParent else "\\Exception");
    if ClassExists(loaded, parent) then Declared(branch) else ParentNotFound(parent)
  }

  /** The declaration as written: `extends QUI\Exception`, with no `use`
      import of `QUI`, inside namespace `QUI\Lockclient\Exceptions`. */
  function DeclareAsWritten(loaded: set<string>): (d: Declaration)
    ensures BranchFor(ClassExists(loaded, "QUI"), ClassExists(loaded, "QUI\\Exception")) == Standalone
            ==> d == Declared(Standalone)
    ensures BranchFor(ClassExists(loaded, "QUI"), ClassExists(loaded, "QUI\\Exception")) == QuiSubclass
            ==> (d.Declared? <==> "QUI\\Lockclient\\Exceptions\\QUI\\Exception" in loaded)
  {
    assert "QUI\\Exception"[0] == 'Q';
    assert "\\Exception"[1..] == "Exception";
    assert FileNamespace + "\\" + "QUI\\Exception" == "QUI\\Lockclient\\Exceptions\\QUI\\Exception";
    Declare(loaded, "QUI\\Exception")
  }

  /** The evidently intended declaration, `extends \QUI\Exception`: the
      class is declared for every set of loaded classes, in the branch they
      select. */
  function DeclareCorrected(loaded: set<string>): (d: Declaration)
    ensures d == Declared(BranchFor(ClassExists(loaded, "QUI"), ClassExists(loaded, "QUI\\Exception")))
  {
    Declare(loaded, "\\QUI\\Exception")
  }

  /** As written, the QUIQQER branch names `QUI\Lockclient\Exceptions\QUI\Exception`
      as its parent: with a host loaded (and no such nested class, which
      the package does not define) the file cannot declare the class at all. */
  lemma AsWrittenFailsUnderHost(loaded: set<string>)
    requires "QUI" in loaded && "QUI\\Exception" in loaded
    requires "QUI\\Lockclient\\Exceptions\\QUI\\Exception" !in loaded
    ensures DeclareAsWritten(loaded) == ParentNotFound("QUI\\Lockclient\\Exceptions\\QUI\\Exception")
  {
  }

  /** The smallest input that shows it: exactly the two host classes loaded. */
  lemma AsWrittenCounterexample()
    ensures DeclareAsWritten({"QUI", "QUI\\Exception"}).ParentNotFound?
  {
  }

  /** `isset($message[1])` on an array: entry 1 exists and is not `null`. */
  predicate HasSecond(message: Value)
  {
    message.Array? && IntKey(1) in message.entries && !message.entries[IntKey(1)].Null?
  }

  /** The standalone constructor's rewrite: an array whose entry 1 is set
      becomes that entry, entry 0 dropped; anything else is kept as it is. */
  function Normalise(message: Value): (m: Value)
    ensures HasSecond(message) ==> m == message.entries[IntKey(1)]
    ensures !message.Array? ==> m == message
    ensures message.Array? && !HasSecond(message) ==> m == message
  {
    if HasSecond(message) then message.entries[IntKey(1)] else message
  }

  /** `new LockServerException($message = "", $code = 0, $previous = null)`
      for the class as `DeclareCorrected` declares it: only the standalone
      branch rewrites the message; under a host, `message` is the argument
      handed to `QUI\Exception`. Code and previous are forwarded unchanged
      in both. */
  function New(branch: Branch, message: Value := Str(""), code: Value := Int(0),
               previous: Option<Throwable> := None): (e: LockServerException)
    ensures e.branch == branch && e.code == code && e.previous == previous
    ensures branch == QuiSubclass ==> e.message == message
    ensures branch == Standalone && HasSecond(message) ==> e.message == message.entries[IntKey(1)]
    ensures branch == Standalone && !HasSecond(message) ==> e.message == message
  {
    LockServerException(branch, if branch == Standalone then Normalise(message) else message, code, previous)
  }

  /** With no arguments the exception has message `""`, code `0` and no
      previous exception. Only the standalone constructor declares these
      defaults; the host class inherits `QUI\Exception`'s. */
  lemma NewDefaults()
    ensures New(Standalone) == LockServerException(Standalone, Str(""), Int(0), None)
  {
  }

  /** A `[group, key]` array, of the shape the lock client passes to
      `QUI\Exception`, collapses to the key in the standalone branch and is
      handed whole to the parent constructor under a host. */
  lemma GroupKeyMessagesCollapseToKey(key: string, code: Value, previous: Option<Throwable>)
    ensures New(Standalone, Lockclient.ErrorMessage(key), code, previous).message == Str(key)
    ensures New(QuiSubclass, Lockclient.ErrorMessage(key), code, previous).message
         == Lockclient.ErrorMessage(key)
  {
  }

  /** The two branches differ only in the message, and only for an array
      whose entry 1 is set. */
  lemma BranchesAgreeWithoutSecondEntry(message: Value, code: Value, previous: Option<Throwable>)
    ensures New(Standalone, message, code, previous).code == New(QuiSubclass, message, code, previous).code
    ensures New(Standalone, message, code, previous).previous
         == New(QuiSubclass, message, code, previous).previous
    ensures !HasSecond(message) ==>
              New(Standalone, message, code, previous).message == New(QuiSubclass, message, code, previous).message
  {
  }
}

=== FILE: lockclient.dfy ===
/** `QUI\Lockclient\Lockclient`, the client of the generate/delta protocol.

    It edits and reads the `require` section of a `composer.json`, POSTs it to
    a fixed lock server, and classifies the curl outcome. Two of its
    operations are gated by the host's `lockserver_enabled` setting; the two
    that work on a manifest path never consult it. */
module Lockclient {
  import opened Common
  import opened Php
  import opened Http

  /** The base every request URL starts with; the endpoints start with a slash
      of their own, so URLs read `https://lock.quiqqer.com//generate`. */
  const ServiceBase: string := "https://lock.quiqqer.com/"
  const ConnectTimeout: nat := 10
  const TotalTimeout: nat := 30

  const GeneratePath: string := "/generate"
  const UpdatePackagePath: string := "/updatePackage"
  const OutdatedPath: string := "/versions/outdated"
  const LatestPath: string := "/versions/latest"

  /** The locale group of the client's exception messages. */
  const LocaleGroup: string := "quiqqer/lockclient"
  const DisabledKey: string := "error.lock.disabled"
  const CurlKey: string := "error.curl.unknown"

  /** Whether a QUIQQER host is loaded (`class_exists('QUI')`) and, if so, its
      `globals.lockserver_enabled` setting. */
  datatype Host = Standalone | Quiqqer(lockserverEnabled: Value)

  /** Everything the client reads besides its arguments. `varDir` is the
      host's `VAR_DIR`. */
  datatype Env = Env(host: Host, files: FileSystem, varDir: string)

  datatype ManifestProblem = NotFound | Unreadable

  datatype LockclientError =
    | InvalidArgument(problem: ManifestProblem, path: string)   // \InvalidArgumentException
    | LockserverError(key: string)                               // QUI\Exception([LocaleGroup, key])
    | ArrayAccessError                                           // PHP Error: a string or scalar used as an array

  /** The message array a `LockserverError` is thrown with. */
  function ErrorMessage(key: string): Value
  {
    Array(map[IntKey(0) := Str(LocaleGroup), IntKey(1) := Str(key)])
  }

  /** An operation's effect: the file system afterwards, the request sent (if
      any), and what it returned or threw. */
  datatype Run<+T> = Run(files: FileSystem, sent: Option<Request>, result: Result<T, LockclientError>)

  /** `sendPostRequest`: a POST to the fixed base plus the endpoint, with a
      10 s connect and 30 s total timeout. A curl error is checked first and a
      status other than 200 second; both throw the same `error.curl.unknown`.
      Only a 200 returns the body, unchanged. */
  function SendPostRequest(endpoint: string, params: map<string, Field>, outcome: Outcome)
    : (call: Call<string, LockclientError>)
    ensures call.sent == Some(Request(ServiceBase + endpoint, params, Limits(ConnectTimeout, TotalTimeout)))
    ensures call.result.Ok? <==> IsOk(outcome)
    ensures call.result.Ok? ==> call.result.value == outcome.body
    ensures call.result.Err? ==> call.result.error == LockserverError(CurlKey)
  {
    var request := Request(ServiceBase + endpoint, params, Limits(ConnectTimeout, TotalTimeout));
    match outcome
    case TransportError(_) => Call(Some(request), Err(LockserverError(CurlKey)))
    case Response(code, body) =>
      if code != 200 then Call(Some(request), Err(LockserverError(CurlKey)))
      else Call(Some(request), Ok(body))
  }

  /** The checks of `requirePackage` and `update`: the manifest exists, then it
      can be read. */
  function ManifestChecks(fs: FileSystem, path: string): seq<Check<LockclientError>>
  {
    [Check(FileExists(fs, path), InvalidArgument(NotFound, path)),
     Check(path in fs && fs[path].Some?, InvalidArgument(Unreadable, path))]
  }

  /** The `require` section of a decoded manifest, as a map; empty when the
      section is missing or not an array. */
  function Requirements(doc: Value): map<Key, Value>
  {
    if doc.Array? && StrKey("require") in doc.entries then EntriesOf(doc.entries[StrKey("require")])
    else map[]
  }

  /** `$data['require'][$package] = $version`. A `null` (undecodable) or `false`
      document, or section, is treated as an empty array; any other non-array
      makes PHP raise. */
  function WithRequirement(doc: Value, package: string, version: string): (r: Option<Value>)
    ensures r.Some? <==>
              Writable(doc) && (doc.Array? && StrKey("require") in doc.entries ==> Writable(doc.entries[StrKey("require")]))
    ensures r.Some? ==>
              && r.value.Array?
              && StrKey("require") in r.value.entries
              && r.value.entries[StrKey("require")].Array?
              && Requirements(r.value) == Requirements(doc)[StrKey(package) := Str(version)]
              && r.value.entries.Keys == EntriesOf(doc).Keys + {StrKey("require")}
              && (forall k :: (k in EntriesOf(doc) && k != StrKey("require"))
                                ==> r.value.entries[k] == EntriesOf(doc)[k])
  {
    if !Writable(doc) then None
    else
      var section := if StrKey("require") in EntriesOf(doc) then EntriesOf(doc)[StrKey("require")] else Null;
      match Assign(section, package, Str(version))
      case None => None
      case Some(section') => Assign(doc, "require", section')
  }

  /** `requirePackage`: check the manifest, set `require[package] = version`,
      write the document back (encoded by `encode`), and POST the updated
      `require` section alone to `/generate`. */
  function RequirePackage(env: Env, decode: AssocDecoder, encode: Value -> string,
                          path: string, package: string, version: string, outcome: Outcome)
    : (run: Run<string>)
    ensures path !in env.files ==> run == Run(env.files, None, Err(InvalidArgument(NotFound, path)))
    ensures path in env.files && env.files[path].None?
            ==> run == Run(env.files, None, Err(InvalidArgument(Unreadable, path)))
    ensures path in env.files && env.files[path].Some? ==>
              var edited := WithRequirement(DecodeAssoc(decode, env.files[path].value), package, version);
              && (run.sent.Some? <==> edited.Some?)
              && (edited.None? ==> run == Run(env.files, None, Err(ArrayAccessError)))
    ensures run.sent.None? ==> run.files == env.files && run.result.Err?
    ensures run.sent.Some? ==>
              && path in env.files && env.files[path].Some?
              && var doc := DecodeAssoc(decode, env.files[path].value);
                 var edited := WithRequirement(doc, package, version);
                 && edited.Some?
                 && run.files == env.files[path := Some(encode(edited.value))]
                 && run.sent.value == Request(ServiceBase + GeneratePath,
                                              map["requires" := JsonOf(Array(Requirements(edited.value)))],
                                              Limits(ConnectTimeout, TotalTimeout))
                 && (run.result.Ok? <==> IsOk(outcome))
                 && (run.result.Ok? ==> run.result.value == outcome.body)
                 && (run.result.Err? ==> run.result.error == LockserverError(CurlKey))
  {
    var checks := ManifestChecks(env.files, path);
    match FirstFailure(checks)
    case Some(e) => Run(env.files, None, Err(e))
    case None =>
      assert checks[0].holds && checks[1].holds;
      var doc := DecodeAssoc(decode, env.files[path].value);
      match WithRequirement(doc, package, version)
      case None => Run(env.files, None, Err(ArrayAccessError))
      case Some(edited) =>
        var files := env.files[path := Some(encode(edited))];
        var call := SendPostRequest(GeneratePath, map["requires" := JsonOf(edited.entries[StrKey("require")])], outcome);
        Run(files, call.sent, call.result)
  }

  /** `update($path, $package = false)`: check the manifest, never write it,
      and POST its current `require` section. Only `false` itself selects
      `/generate`; any other value, `''` and `null` included, selects
      `/updatePackage` and is sent as `package`. */
  function Update(env: Env, decode: AssocDecoder, path: string, outcome: Outcome, package: Value := Bool(false))
    : (run: Run<string>)
    ensures run.files == env.files
    ensures path !in env.files ==> run == Run(env.files, None, Err(InvalidArgument(NotFound, path)))
    ensures path in env.files && env.files[path].None?
            ==> run == Run(env.files, None, Err(InvalidArgument(Unreadable, path)))
    ensures path in env.files && env.files[path].Some? ==>
              var doc := DecodeAssoc(decode, env.files[path].value);
              && (run.sent.Some? <==> Member(doc, "require").Some?)
              && (Member(doc, "require").None? ==> run == Run(env.files, None, Err(ArrayAccessError)))
    ensures run.sent.Some? ==>
              && path in env.files && env.files[path].Some?
              && var doc := DecodeAssoc(decode, env.files[path].value);
                 && Member(doc, "require").Some?
                 && var section := JsonOf(Member(doc, "require").value);
                    && run.sent.value.timeouts == Limits(ConnectTimeout, TotalTimeout)
                    && (package == Bool(false) ==>
                          && run.sent.value.url == ServiceBase + GeneratePath
                          && run.sent.value.fields == map["requires" := section])
                    && (package != Bool(false) ==>
                          && run.sent.value.url == ServiceBase + UpdatePackagePath
                          && run.sent.value.fields == map["requires" := section, "package" := Raw(package)])
                    && (run.result.Ok? <==> IsOk(outcome))
                    && (run.result.Ok? ==> run.result.value == outcome.body)
                    && (run.result.Err? ==> run.result.error == LockserverError(CurlKey))
  {
    var checks := ManifestChecks(env.files, path);
    match FirstFailure(checks)
    case Some(e) => Run(env.files, None, Err(e))
    case None =>
      assert checks[0].holds && checks[1].holds;
      var doc := DecodeAssoc(decode, env.files[path].value);
      match Member(doc, "require")
      case None => Run(env.files, None, Err(ArrayAccessError))
      case Some(section) =>
        var params := map["requires" := JsonOf(section)];
        var call :=
          if package != Bool(false)
          then SendPostRequest(UpdatePackagePath, params["package" := Raw(package)], outcome)
          else SendPostRequest(GeneratePath, params, outcome);
        Run(env.files, call.sent, call.result)
  }

  /** `class_exists('QUI') && !QUI::conf('globals', 'lockserver_enabled')`:
      a standalone client is never disabled, and a host's setting disables it
      exactly when falsy. */
  predicate Disabled(host: Host): (b: bool)
    ensures b ==> host.Quiqqer?
    ensures host.Quiqqer? ==> (b <==> Falsy(host.lockserverEnabled))
    ensures host == Quiqqer(Bool(false)) || host == Quiqqer(Null) ==> b
  {
    host.Quiqqer? && Falsy(host.lockserverEnabled)
  }

  function ManifestPath(env: Env): string
  {
    env.varDir + "/composer/composer.json"
  }

  function LockPath(env: Env): string
  {
    env.varDir + "/composer/composer.lock"
  }

  /** `json_decode(file_get_contents($path), true)`: a missing or unreadable
      file reads as `false`, which `json_decode` receives as the text `''`. */
  function ReadJson(fs: FileSystem, decode: AssocDecoder, path: string): (v: Value)
    ensures v == DecodeAssoc(decode, if path in fs && fs[path].Some? then fs[path].value else "")
  {
    DecodeAssoc(decode, Text(FileGetContents(fs, path)))
  }

  /** `getOutdated`: unless disabled, POST the lock file's content and the
      manifest's `require` and `repositories` (as found under `VAR_DIR`) to
      `/versions/outdated` and return the decoded answer. No file is required
      to exist. */
  function GetOutdated(env: Env, decode: AssocDecoder, outcome: Outcome): (run: Run<Value>)
    ensures run.files == env.files
    ensures Disabled(env.host) ==> run == Run(env.files, None, Err(LockserverError(DisabledKey)))
    ensures !Disabled(env.host) ==>
              var manifest := ReadJson(env.files, decode, ManifestPath(env));
              && (run.sent.Some? <==> Member(manifest, "require").Some? && Member(manifest, "repositories").Some?)
              && (run.sent.None? ==> run.result == Err(ArrayAccessError))
    ensures run.sent.Some? ==>
              && !Disabled(env.host)
              && var manifest := ReadJson(env.files, decode, ManifestPath(env));
                 && Member(manifest, "require").Some? && Member(manifest, "repositories").Some?
                 && run.sent.value
                    == Request(ServiceBase + OutdatedPath,
                               map["lock_content" := Raw(FileGetContents(env.files, LockPath(env))),
                                   "requires" := JsonOf(Member(manifest, "require").value),
                                   "repositories" := JsonOf(Member(manifest, "repositories").value)],
                               Limits(ConnectTimeout, TotalTimeout))
                 && (run.result.Ok? <==> IsOk(outcome))
                 && (run.result.Ok? ==> run.result.value == DecodeAssoc(decode, outcome.body))
                 && (run.result.Err? ==> run.result.error == LockserverError(CurlKey))
  {
    if Disabled(env.host) then Run(env.files, None, Err(LockserverError(DisabledKey)))
    else
      var manifest := ReadJson(env.files, decode, ManifestPath(env));
      match (Member(manifest, "require"), Member(manifest, "repositories"))
      case (Some(section), Some(repositories)) =>
        var fields := map["lock_content" := Raw(FileGetContents(env.files, LockPath(env))),
                          "requires" := JsonOf(section),
                          "repositories" := JsonOf(repositories)];
        var call := SendPostRequest(OutdatedPath, fields, outcome);
        Run(env.files, call.sent,
            if call.result.Ok? then Ok(DecodeAssoc(decode, call.result.value)) else Err(call.result.error))
      case _ => Run(env.files, None, Err(ArrayAccessError))
  }

  /** `getLatestVersionInContraints`: unless disabled, POST the constraints (as
      JSON) and the stability flag (as given) to `/versions/latest` and return
      the decoded answer. */
  function GetLatestVersionInConstraints(env: Env, decode: AssocDecoder, constraints: Value,
                                         onlyStable: Value, outcome: Outcome): (run: Run<Value>)
    ensures run.files == env.files
    ensures Disabled(env.host) ==> run == Run(env.files, None, Err(LockserverError(DisabledKey)))
    ensures !Disabled(env.host) ==>
              && run.sent == Some(Request(ServiceBase + LatestPath,
                                          map["constraints" := JsonOf(constraints), "stable" := Raw(onlyStable)],
                                          Limits(ConnectTimeout, TotalTimeout)))
              && (run.result.Ok? <==> IsOk(outcome))
              && (run.result.Ok? ==> run.result.value == DecodeAssoc(decode, outcome.body))
              && (run.result.Err? ==> run.result.error == LockserverError(CurlKey))
  {
    if Disabled(env.host) then Run(env.files, None, Err(LockserverError(DisabledKey)))
    else
      var call := SendPostRequest(LatestPath, map["constraints" := JsonOf(constraints), "stable" := Raw(onlyStable)], outcome);
      Run(env.files, call.sent,
          if call.result.Ok? then Ok(DecodeAssoc(decode, call.result.value)) else Err(call.result.error))
  }

  /** `requirePackage` and `update` never consult the host or its
      `lockserver_enabled` setting. */
  lemma ManifestOperationsIgnoreHost(env: Env, host: Host, decode: AssocDecoder, encode: Value -> string,
                                     path: string, package: string, version: string,
                                     updated: Value, outcome: Outcome)
    ensures RequirePackage(env.(host := host), decode, encode, path, package, version, outcome)
         == RequirePackage(env, decode, encode, path, package, version, outcome)
    ensures Update(env.(host := host), decode, path, outcome, updated) == Update(env, decode, path, outcome, updated)
  {
  }

  /** What `requirePackage` writes, the next `update` reads back: given a
      JSON codec that round-trips, `update` posts the edited `require`
      section, in which `package` maps to `version` and every other entry is
      the one the manifest had before. */
  lemma RequirePackageThenUpdate(env: Env, decode: AssocDecoder, encode: Value -> string,
                                 path: string, package: string, version: string,
                                 first: Outcome, second: Outcome)
    requires forall d :: DecodeAssoc(decode, encode(d)) == d
    requires RequirePackage(env, decode, encode, path, package, version, first).sent.Some?
    ensures var run := RequirePackage(env, decode, encode, path, package, version, first);
            var next := Update(env.(files := run.files), decode, path, second);
            var before := Requirements(DecodeAssoc(decode, env.files[path].value));
            && next.sent.Some?
            && next.sent.value.fields["requires"] == run.sent.value.fields["requires"]
            && next.sent.value.fields["requires"].value.Array?
            && var after := next.sent.value.fields["requires"].value.entries;
               && StrKey(package) in after && after[StrKey(package)] == Str(version)
               && (forall k :: k != StrKey(package) ==> (k in after <==> k in before))
               && (forall k :: k != StrKey(package) && k in before ==> after[k] == before[k])
  {
  }

  /** `getOutdated` reads the manifest `update` reads when that is the one
      under `VAR_DIR`: for a readable manifest and an enabled client, one
      sends iff the other does, and both post the same `requires`. */
  lemma GetOutdatedPostsUpdateSection(env: Env, decode: AssocDecoder, package: Value,
                                      first: Outcome, second: Outcome)
    requires !Disabled(env.host)
    requires ManifestPath(env) in env.files && env.files[ManifestPath(env)].Some?
    ensures var outdated := GetOutdated(env, decode, first);
            var update := Update(env, decode, ManifestPath(env), second, package);
            && (outdated.sent.Some? <==> update.sent.Some?)
            && (outdated.sent.Some? ==>
                  outdated.sent.value.fields["requires"] == update.sent.value.fields["requires"])
  {
  }

  /** After `requirePackage` edits the manifest under `VAR_DIR`, an enabled
      `getOutdated` posts the edited `require` section. */
  lemma RequirePackageThenGetOutdated(env: Env, decode: AssocDecoder, encode: Value -> string,
                                      package: string, version: string, first: Outcome, second: Outcome)
    requires forall d :: DecodeAssoc(decode, encode(d)) == d
    requires !Disabled(env.host)
    requires RequirePackage(env, decode, encode, ManifestPath(env), package, version, first).sent.Some?
    ensures var run := RequirePackage(env, decode, encode, ManifestPath(env), package, version, first);
            var next := GetOutdated(env.(files := run.files), decode, second);
            && next.sent.Some?
            && next.sent.value.fields["requires"] == run.sent.value.fields["requires"]
  {
    var run := RequirePackage(env, decode, encode, ManifestPath(env), package, version, first);
    var env' := env.(files := run.files);
    assert ManifestPath(env') == ManifestPath(env);
    RequirePackageThenUpdate(env, decode, encode, ManifestPath(env), package, version, first, second);
    GetOutdatedPostsUpdateSection(env', decode, Bool(false), second, second);
  }

  /** `error.lock.disabled` is thrown exactly when the client is disabled,
      and only by the two gated operations. */
  lemma DisabledErrorIffDisabled(env: Env, decode: AssocDecoder, encode: Value -> string,
                                 path: string, package: string, version: string, updated: Value,
                                 constraints: Value, onlyStable: Value, outcome: Outcome)
    ensures (GetOutdated(env, decode, outcome).result == Err(LockserverError(DisabledKey)))
            <==> Disabled(env.host)
    ensures (GetLatestVersionInConstraints(env, decode, constraints, onlyStable, outcome).result
             == Err(LockserverError(DisabledKey)))
            <==> Disabled(env.host)
    ensures RequirePackage(env, decode, encode, path, package, version, outcome).result
            != Err(LockserverError(DisabledKey))
    ensures Update(env, decode, path, outcome, updated).result != Err(LockserverError(DisabledKey))
  {
  }

  /** Successive `$data['require'][$package] = $version` edits of one
      document, as successive `requirePackage` calls make them. */
  function ApplyRequirements(doc: Value, edits: seq<(string, string)>): Option<Value>
    decreases |edits|
  {
    if |edits| == 0 then Some(doc)
    else
      match WithRequirement(doc, edits[0].0, edits[0].1)
      case None => None
      case Some(next) => ApplyRequirements(next, edits[1..])
  }

  /** The version the last edit of `package` sets, if any edit names it. */
  function LastVersion(edits: seq<(string, string)>, package: string): Option<string>
    decreases |edits|
  {
    if |edits| == 0 then None
    else
      match LastVersion(edits[1..], package)
      case Some(v) => Some(v)
      case None => if edits[0].0 == package then Some(edits[0].1) else None
  }

  /** After successive edits the last version given for a package wins, and a
      package no edit names keeps the entry it had (or stays absent). */
  lemma {:induction false} LastRequirementWins(doc: Value, edits: seq<(string, string)>, package: string)
    requires ApplyRequirements(doc, edits).Some?
    ensures var after := Requirements(ApplyRequirements(doc, edits).value);
            var before := Requirements(doc);
            match LastVersion(edits, package)
            case Some(v) => StrKey(package) in after && after[StrKey(package)] == Str(v)
            case None =>
              && (StrKey(package) in after <==> StrKey(package) in before)
              && (StrKey(package) in before ==> after[StrKey(package)] == before[StrKey(package)])
    decreases |edits|
  {
    if |edits| > 0 {
      var next := WithRequirement(doc, edits[0].0, edits[0].1).value;
      LastRequirementWins(next, edits[1..], package);
    }
  }
}

=== FILE: lockserver_client.dfy ===
/** `QUI\Lockserver\Client`, the client of the v2 lock server protocol.

    The client keeps its configuration in a QDOM attribute store: the lock
    server's base URL and the paths of `composer.json` and `composer.lock`.
    Every operation checks its preconditions in a fixed order, throws a
    `QUI\Exception` with code 400 or 404 on the first that fails, and only then
    POSTs to the lock server. Whether a QUIQQER host is loaded only changes the
    text of the messages: a locale key instead of an English sentence. */
module LockserverClient {
  import opened Common
  import opened Php
  import opened Http
  import Lockclient

  const DefaultLockServer: string := "https://lock.quiqqer.com"
  const InstallPath: string := "/v2/install"
  const RequirePath: string := "/v2/require"
  const DryRequirePath: string := "/v2/require/dry"

  /** An exception message: plain English, or a key of the `quiqqer/lockclient`
      locale group when a QUIQQER host is loaded. */
  datatype Message = Plain(text: string) | Localised(key: string)

  /** `QUI\Exception($message, $code)` as thrown by the client. */
  datatype ClientError = ClientError(code: int, message: Message)

  /** A client, as its QDOM attribute store. */
  datatype Client = Client(attributes: map<string, Value>)

  function Defaults(): map<string, Value>
  {
    map["lockServer" := Str(DefaultLockServer),
        "composerJsonFile" := Str(""),
        "composerLockFile" := Str("")]
  }

  /** The constructor: defaults, overridden by the caller's parameters, and the
      `isQuiqqer` flag set last from the host, so no parameter can set it.
      `quiqqerHost` stands for `class_exists('QUI')` together with
      `QUI::getLocale` being callable. */
  function New(params: map<string, Value>, quiqqerHost: bool): (c: Client)
    ensures c.attributes.Keys
         == params.Keys + {"lockServer", "composerJsonFile", "composerLockFile", "isQuiqqer"}
    ensures forall k :: k in params && k != "isQuiqqer" ==> c.attributes[k] == params[k]
    ensures "lockServer" !in params ==> c.attributes["lockServer"] == Str(DefaultLockServer)
    ensures "composerJsonFile" !in params ==> c.attributes["composerJsonFile"] == Str("")
    ensures "composerLockFile" !in params ==> c.attributes["composerLockFile"] == Str("")
    ensures c.attributes["isQuiqqer"] == Bool(quiqqerHost)
  {
    Client((Defaults() + params)["isQuiqqer" := Bool(quiqqerHost)])
  }

  /** A client built without a `lockServer` parameter targets the default
      server, and every error it raises is localised exactly when a QUIQQER
      host is loaded, whatever the parameters say. */
  lemma NewClientDefaults(params: map<string, Value>, quiqqerHost: bool, path: string)
    ensures "lockServer" !in params ==>
              HasServer(New(params, quiqqerHost)) && ServerUrl(New(params, quiqqerHost), path) == DefaultLockServer + path
    ensures IsQuiqqer(New(params, quiqqerHost)) <==> quiqqerHost
    ensures UnknownServer(New(params, quiqqerHost)).message.Localised? <==> quiqqerHost
  {
  }

  /** `getAttribute($name)`: QDOM answers `false` for an attribute never set. */
  function Attribute(c: Client, name: string): (v: Value)
    ensures name in c.attributes ==> v == c.attributes[name]
    ensures name !in c.attributes ==> v == Bool(false) && Falsy(v)
  {
    if name in c.attributes then c.attributes[name] else Bool(false)
  }

  predicate IsQuiqqer(c: Client)
  {
    !Falsy(Attribute(c, "isQuiqqer"))
  }

  function Raise(c: Client, code: int, key: string, text: string): ClientError
  {
    ClientError(code, if IsQuiqqer(c) then Localised(key) else Plain(text))
  }

  function UnknownServer(c: Client): ClientError
  {
    Raise(c, 400, "exception.lock.client.unknown.lock.server", "Unknown Lock-Server")
  }

  function LockFileNotFound(c: Client): ClientError
  {
    Raise(c, 404, "exception.lock.client.lockfile.not.found", "composer.lock file not found")
  }

  function ManifestNotFound(c: Client): ClientError
  {
    Raise(c, 404, "exception.lock.client.composerjson.not.found", "composer.json file not found")
  }

  function InvalidJson(c: Client): ClientError
  {
    Raise(c, 400, "exception.lock.client.json.invalid", "The JSON is invalid")
  }

  /** `!empty($lockServer)`. */
  predicate HasServer(c: Client)
  {
    !Falsy(Attribute(c, "lockServer"))
  }

  /** `!empty($file) && file_exists($file)` for the path held by attribute `name`. */
  predicate FilePresent(c: Client, fs: FileSystem, name: string)
  {
    !Falsy(Attribute(c, name)) && FileExists(fs, Text(Attribute(c, name)))
  }

  /** `file_get_contents` of the path held by attribute `name`. */
  function Contents(c: Client, fs: FileSystem, name: string): Value
  {
    FileGetContents(fs, Text(Attribute(c, name)))
  }

  /** `$lockServer.$path`. */
  function ServerUrl(c: Client, path: string): string
  {
    Text(Attribute(c, "lockServer")) + path
  }

  function ServerCheck(c: Client): Check<ClientError>
  {
    Check(HasServer(c), UnknownServer(c))
  }

  function LockFileCheck(c: Client, fs: FileSystem): Check<ClientError>
  {
    Check(FilePresent(c, fs, "composerLockFile"), LockFileNotFound(c))
  }

  function ManifestCheck(c: Client, fs: FileSystem): Check<ClientError>
  {
    Check(FilePresent(c, fs, "composerJsonFile"), ManifestNotFound(c))
  }

  /** `_request`: POST the fields, and return the body unchanged on HTTP 200;
      anything else throws the body as message with code 400. A transport
      failure leaves curl with status 0 and no body, so it throws an empty
      message. */
  function PostRequest(url: string, fields: map<string, Field>, outcome: Outcome)
    : (call: Call<string, ClientError>)
    ensures call.sent == Some(Request(url, fields, CurlDefaults))
    ensures call.result.Ok? <==> IsOk(outcome)
    ensures call.result.Ok? ==> call.result.value == outcome.body
    ensures call.result.Err? ==> call.result.error.code == 400
    ensures call.result.Err? && outcome.Response? ==> call.result.error.message == Plain(outcome.body)
    ensures outcome.TransportError? ==> call.result.error.message == Plain("")
  {
    var result :=
      match outcome
      case TransportError(_) => Err(ClientError(400, Plain("")))
      case Response(code, body) =>
        if code == 200 then Ok(body) else Err(ClientError(400, Plain(body)));
    Call(Some(Request(url, fields, CurlDefaults)), result)
  }

  /** `install`: server first (400), then `composer.json` (404), then a POST of
      the manifest's content alone to `/v2/install`, returning the lock file. */
  function Install(c: Client, fs: FileSystem, outcome: Outcome): (call: Call<string, ClientError>)
    ensures !HasServer(c) ==> call == Call(None, Err(UnknownServer(c)))
    ensures HasServer(c) && !FilePresent(c, fs, "composerJsonFile")
            ==> call == Call(None, Err(ManifestNotFound(c)))
    ensures HasServer(c) && FilePresent(c, fs, "composerJsonFile") ==>
              && call.sent == Some(Request(ServerUrl(c, InstallPath),
                                           map["composerJson" := Raw(Contents(c, fs, "composerJsonFile"))],
                                           CurlDefaults))
              && (call.result.Ok? <==> IsOk(outcome))
              && (call.result.Ok? ==> call.result.value == outcome.body)
              && (call.result.Err? ==> call.result.error.code == 400)
              && (call.result.Err? && outcome.Response? ==> call.result.error.message == Plain(outcome.body))
              && (outcome.TransportError? ==> call.result.error.message == Plain(""))
  {
    var checks := [ServerCheck(c), ManifestCheck(c, fs)];
    match FirstFailure(checks)
    case Some(e) => Call(None, Err(e))
    case None =>
      assert checks[0].holds && checks[1].holds;
      PostRequest(ServerUrl(c, InstallPath),
                  map["composerJson" := Raw(Contents(c, fs, "composerJsonFile"))], outcome)
  }

  /** The two clients' request helpers agree on success: each returns the
      body unchanged exactly on a 200 without a transport error. They differ
      only in what they throw: code 400 with the body here, the fixed
      `error.curl.unknown` there. */
  lemma PostRequestAgreesWithSendPostRequest(url: string, endpoint: string,
                                             fields: map<string, Field>, outcome: Outcome)
    ensures PostRequest(url, fields, outcome).result.Ok?
        <==> Lockclient.SendPostRequest(endpoint, fields, outcome).result.Ok?
    ensures PostRequest(url, fields, outcome).result.Ok? ==>
              PostRequest(url, fields, outcome).result.value
              == Lockclient.SendPostRequest(endpoint, fields, outcome).result.value
    ensures PostRequest(url, fields, outcome).result.Err? && outcome.Response? ==>
              && PostRequest(url, fields, outcome).result.error == ClientError(400, Plain(outcome.body))
              && Lockclient.SendPostRequest(endpoint, fields, outcome).result.error
                 == Lockclient.LockserverError(Lockclient.CurlKey)
  {
  }

  /** `install` never looks at the lock file: neither the attribute naming it
      nor any file other than the manifest changes what it does. */
  lemma InstallIgnoresLockFile(c: Client, fs: FileSystem, outcome: Outcome,
                               lockFile: Value, path: string, content: Option<string>)
    requires path != Text(Attribute(c, "composerJsonFile"))
    ensures Install(Client(c.attributes["composerLockFile" := lockFile]), fs, outcome)
         == Install(c, fs, outcome)
    ensures Install(c, fs[path := content], outcome) == Install(c, fs, outcome)
  {
  }

  /** The fields `_send` posts: the caller's, with `composerJson` and
      `composerLock` set to the two files' contents. */
  function SendFields(c: Client, fs: FileSystem, fields: map<string, Field>): map<string, Field>
  {
    fields["composerJson" := Raw(Contents(c, fs, "composerJsonFile"))]
          ["composerLock" := Raw(Contents(c, fs, "composerLockFile"))]
  }

  /** `_send`: server (400), lock file (404), manifest (404), in that order, the
      first failure thrown before any request; then a POST of the merged fields
      to the server's URL plus `path`. The method has no `return`, so the body
      of a successful response is dropped. */
  function Send(c: Client, fs: FileSystem, path: string, fields: map<string, Field>, outcome: Outcome)
    : (call: Call<(), ClientError>)
    ensures !HasServer(c) ==> call == Call(None, Err(UnknownServer(c)))
    ensures HasServer(c) && !FilePresent(c, fs, "composerLockFile")
            ==> call == Call(None, Err(LockFileNotFound(c)))
    ensures HasServer(c) && FilePresent(c, fs, "composerLockFile") && !FilePresent(c, fs, "composerJsonFile")
            ==> call == Call(None, Err(ManifestNotFound(c)))
    ensures call.sent.Some? <==>
              HasServer(c) && FilePresent(c, fs, "composerLockFile") && FilePresent(c, fs, "composerJsonFile")
    ensures call.sent.Some? ==>
              && call.sent.value.url == ServerUrl(c, path)
              && call.sent.value.timeouts == CurlDefaults
              && call.sent.value.fields.Keys == fields.Keys + {"composerJson", "composerLock"}
              && call.sent.value.fields["composerJson"] == Raw(Contents(c, fs, "composerJsonFile"))
              && call.sent.value.fields["composerLock"] == Raw(Contents(c, fs, "composerLockFile"))
              && (forall k :: (k in fields && k != "composerJson" && k != "composerLock")
                                ==> call.sent.value.fields[k] == fields[k])
              && (call.result == Ok(()) <==> IsOk(outcome))
              && (call.result.Err? ==> call.result.error.code == 400)
              && (call.result.Err? && outcome.Response? ==> call.result.error.message == Plain(outcome.body))
              && (outcome.TransportError? ==> call.result == Err(ClientError(400, Plain(""))))
  {
    var checks := [ServerCheck(c), LockFileCheck(c, fs), ManifestCheck(c, fs)];
    match FirstFailure(checks)
    case Some(e) => Call(None, Err(e))
    case None =>
      assert checks[0].holds && checks[1].holds && checks[2].holds;
      var call := PostRequest(ServerUrl(c, path), SendFields(c, fs, fields), outcome);
      Call(call.sent, if call.result.Ok? then Ok(()) else Err(call.result.error))
  }

  /** A string argument becomes a one-element list. */
  function AsList(packages: Value): (w: Value)
    ensures packages.Str? ==> w == Array(map[IntKey(0) := packages])
    ensures !packages.Str? ==> w == packages
  {
    if packages.Str? then Array(map[IntKey(0) := packages]) else packages
  }

  /** The `package` argument of `dryUpdate`: wrapped like `update`'s, then
      replaced by `''` when empty. A wrapped string is never empty, so only a
      non-string argument can become `''`. */
  function DryPackages(packages: Value): (w: Value)
    ensures packages.Str? ==> w == Array(map[IntKey(0) := packages])
    ensures !packages.Str? && Falsy(packages) ==> w == Str("")
    ensures !packages.Str? && !Falsy(packages) ==> w == packages
  {
    var wrapped := AsList(packages);
    if Falsy(wrapped) then Str("") else wrapped
  }

  /** `update($packages)`: the JSON list of packages, sent to `/v2/require`. */
  function Update(c: Client, fs: FileSystem, outcome: Outcome, packages: Value): Call<(), ClientError>
  {
    Send(c, fs, RequirePath, map["package" := JsonOf(AsList(packages))], outcome)
  }

  /** `dryUpdate($packages = '')`, sent to `/v2/require/dry`. */
  function DryUpdate(c: Client, fs: FileSystem, outcome: Outcome, packages: Value := Str(""))
    : Call<(), ClientError>
  {
    Send(c, fs, DryRequirePath, map["package" := JsonOf(DryPackages(packages))], outcome)
  }

  /** `requires($package, $version = '')`, both passed verbatim to `/v2/require`. */
  function Requires(c: Client, fs: FileSystem, outcome: Outcome, package: Value, version: Value := Str(""))
    : Call<(), ClientError>
  {
    Send(c, fs, RequirePath, map["package" := Raw(package), "version" := Raw(version)], outcome)
  }

  /** `dryRequires($package, $version = '')`, sent to `/v2/require/dry`. */
  function DryRequires(c: Client, fs: FileSystem, outcome: Outcome, package: Value, version: Value := Str(""))
    : Call<(), ClientError>
  {
    Send(c, fs, DryRequirePath, map["package" := Raw(package), "version" := Raw(version)], outcome)
  }

  /** Same checks, same fields, same outcome handling: a plain and a dry
      operation only differ in the path they target. */
  predicate SameButPath(plain: Call<(), ClientError>, dry: Call<(), ClientError>, c: Client)
  {
    && plain.result == dry.result
    && (plain.sent.Some? <==> dry.sent.Some?)
    && (plain.sent.Some? ==>
          && plain.sent.value.fields == dry.sent.value.fields
          && plain.sent.value.url == ServerUrl(c, RequirePath)
          && dry.sent.value.url == ServerUrl(c, DryRequirePath))
  }

  /** `requires` posts `package` and `version` exactly as given, `version`
      defaulting to `''`, and its dry variant differs only in the path. */
  lemma RequiresPayload(c: Client, fs: FileSystem, outcome: Outcome, package: Value, version: Value)
    ensures Requires(c, fs, outcome, package).sent.Some? ==>
              Requires(c, fs, outcome, package).sent.value.fields["version"] == Raw(Str(""))
    ensures Requires(c, fs, outcome, package, version).sent.Some? ==>
              && Requires(c, fs, outcome, package, version).sent.value.fields["package"] == Raw(package)
              && Requires(c, fs, outcome, package, version).sent.value.fields["version"] == Raw(version)
    ensures SameButPath(Requires(c, fs, outcome, package, version),
                        DryRequires(c, fs, outcome, package, version), c)
  {
  }

  /** `update` posts the packages as a JSON list; its dry variant posts the same
      fields to the dry path whenever the argument is a string or a non-empty
      value. */
  lemma UpdatePayload(c: Client, fs: FileSystem, outcome: Outcome, packages: Value)
    ensures Update(c, fs, outcome, packages).sent.Some? ==>
              && Update(c, fs, outcome, packages).sent.value.url == ServerUrl(c, RequirePath)
              && Update(c, fs, outcome, packages).sent.value.fields["package"] == JsonOf(AsList(packages))
    ensures DryUpdate(c, fs, outcome, packages).sent.Some? ==>
              DryUpdate(c, fs, outcome, packages).sent.value.url == ServerUrl(c, DryRequirePath)
    ensures packages.Str? || !Falsy(packages) ==>
              SameButPath(Update(c, fs, outcome, packages), DryUpdate(c, fs, outcome, packages), c)
  {
  }

  /** `dryUpdate('')`, like `dryUpdate()`, posts the list `[""]`, not `''`:
      the string is wrapped before the emptiness test. Only an empty non-string
      argument posts `''`. */
  lemma DryUpdateEmptyArguments(c: Client, fs: FileSystem, outcome: Outcome, packages: Value)
    requires DryUpdate(c, fs, outcome).sent.Some?
    ensures DryUpdate(c, fs, outcome).sent.value.fields["package"]
         == JsonOf(Array(map[IntKey(0) := Str("")]))
    ensures DryUpdate(c, fs, outcome, Str("")) == DryUpdate(c, fs, outcome)
    ensures !packages.Str? && Falsy(packages) ==>
              DryUpdate(c, fs, outcome, packages).sent.value.fields["package"] == JsonOf(Str(""))
  {
  }

  /** Operations built on `_send` yield nothing on success: the response body
      has no influence on their result. */
  lemma SendDropsBody(c: Client, fs: FileSystem, path: string, fields: map<string, Field>, body1: string, body2: string)
    ensures Send(c, fs, path, fields, Response(200, body1)).result
         == Send(c, fs, path, fields, Response(200, body2)).result
    ensures Send(c, fs, path, fields, Response(200, body1)).sent.Some? ==>
              Send(c, fs, path, fields, Response(200, body1)).result == Ok(())
  {
  }

  /** `_checkJSON`: throws 400 whenever `json_decode` yields a falsy value,
      which covers a syntax error and also valid `[]`, `0`, `false`, `null`,
      `""` and `"0"`, and the empty text; a JSON object always passes. */
  function CheckJson(c: Client, decode: ObjectDecoder, json: string): (r: Result<(), ClientError>)
    ensures r.Err? ==> r.error == InvalidJson(c) && r.error.code == 400
    ensures json == "" ==> r.Err?
    ensures decode(json).None? ==> r.Err?
    ensures json != "" && decode(json) == Some(StdObject) ==> r.Ok?
    ensures json != "" && decode(json).Some? && decode(json).value.PhpValue? ==>
              (r.Ok? <==> !Falsy(decode(json).value.value))
  {
    if FalsyDecoded(DecodeObject(decode, json)) then Err(InvalidJson(c)) else Ok(())
  }

  /** Apart from arrays and objects, `_checkJSON` accepts a decoded value
      exactly when its text is neither `''` nor `'0'`. */
  lemma CheckJsonByText(c: Client, decode: ObjectDecoder, json: string, v: Value)
    requires json != "" && decode(json) == Some(PhpValue(v)) && !v.Array?
    ensures CheckJson(c, decode, json).Ok? <==> Text(v) != "" && Text(v) != "0"
  {
    FalsyScalarsByText(v);
  }

  /** Valid JSON documents that `_checkJSON` nevertheless rejects. */
  lemma CheckJsonRejectsFalsyDocuments(c: Client, decode: ObjectDecoder, json: string)
    requires decode(json) in {Some(PhpValue(Array(map[]))), Some(PhpValue(Int(0))),
                              Some(PhpValue(Bool(false))), Some(PhpValue(Null)),
                              Some(PhpValue(Str(""))), Some(PhpValue(Str("0")))}
    ensures CheckJson(c, decode, json) == Err(InvalidJson(c))
  {
  }
}

=== FILE: php.dfy ===
/** The slice of PHP's value semantics the lock client relies on: values,
    truthiness (`empty($v)` and `!$v`), string conversion, array reads and
    writes, and the file system seen as a map from path to content. */
module Php {
  import opened Common

  /** An array key. PHP turns canonical integer strings into integer keys;
      this model keeps the two apart (see README). */
  datatype Key = IntKey(n: int) | StrKey(s: string)

  /** A PHP value. Arrays are maps from keys to values; their insertion order
      only matters to `json_encode`, which is not modelled. */
  datatype Value =
    | Null
    | Bool(b: bool)
    | Int(n: int)
    | Str(s: string)
    | Array(entries: map<Key, Value>)

  /** What `json_decode($s)` yields without the associative flag: a top-level
      JSON object becomes a `stdClass` instance, anything else a plain value. */
  datatype Decoded = StdObject | PhpValue(value: Value)

  /** The abstract JSON decoders: `None` is a syntax error, which `json_decode`
      reports as `null`. */
  type AssocDecoder = string -> Option<Value>
  type ObjectDecoder = string -> Option<Decoded>

  /** The file system: a path that exists maps to its content, or to `None`
      when it exists but `file_get_contents` cannot read it. */
  type FileSystem = map<string, Option<string>>

  /** PHP's falsy values: exactly what `empty($v)` and `!$v` accept. */
  predicate Falsy(v: Value)
  {
    match v
    case Null => true
    case Bool(b) => !b
    case Int(n) => n == 0
    case Str(s) => s == "" || s == "0"
    case Array(m) => |m| == 0
  }

  /** Truthiness of a `json_decode` result: objects are always true. */
  predicate FalsyDecoded(d: Decoded)
  {
    match d
    case StdObject => false
    case PhpValue(v) => Falsy(v)
  }

  /** `json_decode($s, true)`: the empty text is never a JSON document, so
      it always yields `null`. */
  function DecodeAssoc(decode: AssocDecoder, s: string): (v: Value)
    ensures s == "" ==> v == Null
  {
    if s == "" then Null
    else match decode(s)
    case None => Null
    case Some(v) => v
  }

  /** `json_decode($s)`, with `null` for the empty text as above. */
  function DecodeObject(decode: ObjectDecoder, s: string): (d: Decoded)
    ensures s == "" ==> d == PhpValue(Null)
  {
    if s == "" then PhpValue(Null)
    else match decode(s)
    case None => PhpValue(Null)
    case Some(d) => d
  }

  function DigitChar(d: nat): char
    requires d < 10
  {
    "0123456789"[d]
  }

  predicate IsDigit(c: char)
  {
    '0' <= c <= '9'
  }

  /** The decimal digits of `n`, without leading zeros. */
  function Digits(n: nat): (s: string)
    ensures |s| > 0 && IsDigit(s[0])
    ensures forall i :: 0 <= i < |s| ==> IsDigit(s[i])
    ensures s[0] == '0' ==> n == 0
    decreases n
  {
    if n < 10 then [DigitChar(n)] else Digits(n / 10) + [DigitChar(n % 10)]
  }

  /** The value of a string of decimal digits. */
  function DigitsValue(s: string): nat
  {
    if |s| == 0 || !IsDigit(s[|s| - 1]) then 0
    else DigitsValue(s[..|s| - 1]) * 10 + (s[|s| - 1] as int - '0' as int)
  }

  lemma {:induction false} DigitsRoundTrip(n: nat)
    ensures DigitsValue(Digits(n)) == n
    decreases n
  {
    if n >= 10 {
      var s := Digits(n);
      assert s[..|s| - 1] == Digits(n / 10);
      DigitsRoundTrip(n / 10);
    }
  }

  /** `(string)$v` for the values a caller may pass as a path or server URL.
      An array converts to the text "Array". An integer converts to its
      decimal digits, from which its value can be read back. */
  function Text(v: Value): (t: string)
    ensures v.Str? ==> t == v.s
    ensures v == Null || v == Bool(false) ==> t == ""
    ensures v == Bool(true) ==> t == "1"
    ensures v.Array? ==> t == "Array"
    ensures v.Int? && v.n >= 0 ==> DigitsValue(t) == v.n
    ensures v.Int? && v.n < 0 ==> |t| > 1 && t[0] == '-' && DigitsValue(t[1..]) == -v.n
  {
    match v
    case Null => ""
    case Bool(b) => if b then "1" else ""
    case Int(n) =>
      if n < 0 then
        DigitsRoundTrip(-n);
        assert ("-" + Digits(-n))[1..] == Digits(-n);
        "-" + Digits(-n)
      else
        DigitsRoundTrip(n);
        Digits(n)
    case Str(s) => s
    case Array(_) => "Array"
  }

  /** For every value but an array, PHP's falsiness is decided by the value's
      text: exactly `''` and `'0'` are falsy. */
  lemma FalsyScalarsByText(v: Value)
    requires !v.Array?
    ensures Falsy(v) <==> Text(v) == "" || Text(v) == "0"
  {
    if v.Int? && v.n < 0 {
      assert |Text(v)| >= 2;
    }
  }

  /** `file_exists($path)`. */
  predicate FileExists(fs: FileSystem, path: string)
  {
    path in fs
  }

  /** `file_get_contents($path)`: the content, or `false`. */
  function FileGetContents(fs: FileSystem, path: string): (v: Value)
    ensures v.Str? <==> path in fs && fs[path].Some?
    ensures v.Str? ==> v.s == fs[path].value
    ensures !v.Str? ==> v == Bool(false)
  {
    if path in fs && fs[path].Some? then Str(fs[path].value) else Bool(false)
  }

  /** Values a nested array write may turn into an array: `null` and `false`
      autovivify, an array is written in place. Writing through any other value
      raises an `Error` in PHP 8. */
  predicate Writable(v: Value)
  {
    v.Null? || v == Bool(false) || v.Array?
  }

  function EntriesOf(v: Value): map<Key, Value>
  {
    if v.Array? then v.entries else map[]
  }

  /** `$v['name']` read with a non-numeric string key: the entry of an array,
      `null` for a missing entry or a scalar, and an `Error` (`None`) for a
      string. */
  function Member(v: Value, name: string): (r: Option<Value>)
    ensures r.None? <==> v.Str?
    ensures v.Array? && StrKey(name) in v.entries ==> r == Some(v.entries[StrKey(name)])
    ensures !v.Str? && StrKey(name) !in EntriesOf(v) ==> r == Some(Null)
  {
    match v
    case Str(_) => None
    case Array(m) => if StrKey(name) in m then Some(m[StrKey(name)]) else Some(Null)
    case _ => Some(Null)
  }

  /** `$c['name'] = $x` with a non-numeric string key: the resulting
      container, or `None` when PHP raises. (A string written at an integer
      offset is edited in place instead; the client never does that.) */
  function Assign(c: Value, name: string, x: Value): (r: Option<Value>)
    ensures r.Some? <==> Writable(c)
    ensures r.Some? ==> r.value.Array? && r.value.entries.Keys == EntriesOf(c).Keys + {StrKey(name)}
    ensures r.Some? ==> r.value.entries[StrKey(name)] == x
    ensures r.Some? ==>
              forall j :: j in EntriesOf(c) && j != StrKey(name) ==> r.value.entries[j] == EntriesOf(c)[j]
  {
    if Writable(c) then Some(Array(EntriesOf(c)[StrKey(name) := x])) else None
  }
}
